=== FILE: README.md ===
# Launch geometry of the argon2-gpu CUDA processing unit

This project models, in Dafny, how the CUDA `ProcessingUnit` of argon2-gpu
(`lib/argon2-cuda/processingunit.cpp`) chooses the launch geometry of its
batched Argon2 kernel: lanes per block and jobs per block.

- **Construction-time tuning.** The geometry starts at the kernel runner's
  minima. When the lane maximum exceeds the minimum and passes the
  power-of-two test, lanes per block 1, 2, 4, ... up to the maximum are each
  timed with one dispatch at the current jobs per block. Only a strictly
  faster time replaces the best, and the first failing dispatch ends the
  search. When the lanes end up exactly at their maximum, the same search
  runs over jobs per block at those lanes.
  `Tuning.DoublingSearch` is that loop, proved against the recursive
  specification `Tuning.Search` / `Tuning.Tried`.
  `Cuda.ProcessingUnit`'s constructor runs it at most once per dimension.
- **Override resolution.** Before each dispatch, `beginProcessing` reads
  `A2_LPB`, `A2_JPB` and `A2_FORCE` from the environment.
  `Geometry.Resolve` is that resolution as a pure function:
  - under force, a negative override stands for the dimension's maximum;
  - a positive override is clamped into the dimension's bounds;
  - zero, or a negative override without force, keeps the tuned value.
- **Helpers.** The uint32 test `(x & (x - 1)) == 0` is `Bits.IsPowerOfTwo`.
  `env_int` and `env_on` are `Env.EnvInt` and `Env.EnvOn`, built over a model
  of C's base-10 `strtol`, `Env.Strtol`. `setCudaDevice` is
  `Cuda.DeviceContext.SetCudaDevice`, acting on an explicit current-device
  object.

The kernel runner is a timing oracle `(Phase, Geometry) -> Trial`: a trial
gives an elapsed time (a natural number) or a failure. Within one phase no
geometry is timed twice. Tagging each trial with its phase therefore lets the
oracle produce any sequence of outcomes a real device could produce. The
environment is a `map<string, string>`.

Two behaviours of the code that a reader might not expect:

- A zero override is ignored, not clamped to the minimum. The tests at lines
  180 and 184 are `> 0`. See `Geometry.ZeroOverrideKeepsTuned`.
- The dispatched geometry is not always within the runner's bounds. Lane
  candidates start at 1, not at the minimum (line 68), so the tuned lanes can
  fall below the minimum (`Tuning.LanesCanFallBelowMinimum`). Without an
  override, resolution then dispatches that value as it is
  (`Geometry.TunedOutsideBoundsKept`). Resolution does stay within the bounds
  when the tuned geometry is within them, or when both overrides are positive
  (`Geometry.Resolve`). Every dispatched dimension is always at least 1 and at
  most its maximum (`Cuda.ProcessingUnit.BeginProcessing`).

## Model

| member | source | states |
|---|---|---|
| `Bits.BitAnd` | lib/argon2-cuda/processingunit.cpp:39 | the bitwise AND of two values is no larger than either operand |
| `Bits.Pred32` | lib/argon2-cuda/processingunit.cpp:39 | `x - 1` on a uint32 is the difference taken modulo 2^32, as C defines unsigned subtraction, so 0 wraps to 2^32 - 1 |
| `Bits.PowerOfTwoMeaning` | lib/argon2-cuda/processingunit.cpp:37-40 | `isPowerOfTwo(x)` holds exactly when x is 0 or a power of two (checked against an independent recursive definition) |
| `Bits.ZeroPassesTest` | lib/argon2-cuda/processingunit.cpp:37-40 | `isPowerOfTwo(0)` is true although 0 is not a power of two |
| `Bits.Pow2StepsOnto` | lib/argon2-cuda/processingunit.cpp:68-69 | doubling a power of two that is at most a power-of-two bound either reaches the bound or stays within it |
| `Env.Strtol` | lib/argon2-cuda/processingunit.cpp:15 | with no conversion the value is 0 and the end is the start; otherwise the end lies just past the last digit of a run of digits |
| `Env.StrtolDecimal` | lib/argon2-cuda/processingunit.cpp:15 | after any leading white space, the decimal rendering of every integer converts back to that integer, and the end lies right after it |
| `Env.StrtolPlusSign` | lib/argon2-cuda/processingunit.cpp:15 | after white space, a '+' followed by the rendering of a natural n and a non-digit tail converts to n, ending just after the digits |
| `Env.StrtolNoDigits` | lib/argon2-cuda/processingunit.cpp:15 | a value with no digit right after its leading white space and optional sign converts to 0 with the end at the start, whatever follows |
| `Env.EnvInt` | lib/argon2-cuda/processingunit.cpp:12-19 | an unset variable, or a value not consumed up to its end, gives the default |
| `Env.EnvIntRoundTrip` | lib/argon2-cuda/processingunit.cpp:12-19 | the decimal rendering of any integer, with optional leading white space, is read back as that integer |
| `Env.EnvIntRejectsTrailing` | lib/argon2-cuda/processingunit.cpp:16-18 | any character after the number other than the end of the string makes `env_int` return the default |
| `Env.EnvIntEdgeCases` | lib/argon2-cuda/processingunit.cpp:14-18 | the empty string is read as 0; white space alone or a lone sign gives the default |
| `Env.EnvOn` | lib/argon2-cuda/processingunit.cpp:21-24 | an unset variable gives the default |
| `Env.EnvOnLeadingNumber` | lib/argon2-cuda/processingunit.cpp:22 | a value of white space, then the rendering of n, then anything that does not start with a digit, is on exactly when n is nonzero |
| `Env.WordsAreOff` | lib/argon2-cuda/processingunit.cpp:12-23 | a value with no digit after its leading white space and optional sign (such as "yes", " yes" or "-x") turns the flag off whatever the default, and `env_int` ignores it unless the value is empty |
| `Env.JunkAfterSignOrSpace` | lib/argon2-cuda/processingunit.cpp:12-23 | "-x5" and "  x5" give `env_int`'s default, and "+-1" and " yes1" are off even with the flag's default on |
| `Geometry.ResolveDim` | lib/argon2-cuda/processingunit.cpp:176-187 | an override of 0, or a negative one without force, keeps the tuned value; a negative one under force gives the maximum; a positive one within the bounds is used as given, one below gives the minimum, one above gives the maximum |
| `Geometry.Resolve` | lib/argon2-cuda/processingunit.cpp:173-187 | a tuned geometry within the bounds resolves within the bounds, and so do two positive overrides; a tuned geometry between 1 and the maxima resolves between 1 and the maxima; force with both overrides negative gives exactly (maxLanes, maxJobs); no positive or forced override leaves the tuned geometry |
| `Geometry.ResolveIndependent` | lib/argon2-cuda/processingunit.cpp:180-187 | the lanes override does not affect jobs per block, and the jobs override does not affect lanes per block |
| `Geometry.ZeroOverrideKeepsTuned` | lib/argon2-cuda/processingunit.cpp:180-187 | with bounds [1, 16], overrides of 0 keep the tuned geometry, with or without force |
| `Geometry.TunedOutsideBoundsKept` | lib/argon2-cuda/processingunit.cpp:173-187 | a tuned value below the minimum is dispatched unchanged when no override is given |
| `Tuning.DoublingSearch` | lib/argon2-cuda/processingunit.cpp:67-92 | the loop returns the search specification's best and the candidates it dispatched; the best is the initial value or a power of two within the maximum whose trial succeeded |
| `Tuning.TriedShape` | lib/argon2-cuda/processingunit.cpp:68-81 | candidates are dispatched as 2^e, 2^(e+1), ... in increasing order, all within the maximum; all but the last succeeded; if the last one succeeded, the next candidate would exceed the maximum |
| `Tuning.SearchPicksTried` | lib/argon2-cuda/processingunit.cpp:88-91 | the search either keeps its starting state or ends on a dispatched, successful candidate whose time strictly improved on the starting best time |
| `Tuning.SearchKeepsBestTime` | lib/argon2-cuda/processingunit.cpp:88-91 | the best time never increases, and exists once any candidate has succeeded |
| `Tuning.SearchIsFastest` | lib/argon2-cuda/processingunit.cpp:88-91 | no successful dispatched candidate is faster than the best time |
| `Tuning.SearchKeepsEarliest` | lib/argon2-cuda/processingunit.cpp:88-91 | on ties the earlier candidate is kept: every smaller successful candidate was strictly slower than the chosen one |
| `Tuning.SearchBestIsFastestTried` | lib/argon2-cuda/processingunit.cpp:67-92 | if some candidate succeeded, the result is a successful dispatched candidate with the least time, the smallest among equals; otherwise it is the initial value |
| `Tuning.SearchBestRange` | lib/argon2-cuda/processingunit.cpp:68-91 | the result is the initial value or a power of two within the maximum whose trial succeeded |
| `Tuning.FirstFailureKeepsInit` | lib/argon2-cuda/processingunit.cpp:72-81 | if candidate 1 fails, only it is dispatched and the initial value is kept |
| `Tuning.SearchReachesMax` | lib/argon2-cuda/processingunit.cpp:61-69 | with a power-of-two maximum and no failure, the last candidate dispatched is the maximum itself |
| `Tuning.UntunedStaysAtMinima` | lib/argon2-cuda/processingunit.cpp:51-52 | when neither search runs, the geometry is (minLanes, minJobs) and nothing is dispatched |
| `Tuning.TunedLanesRange` | lib/argon2-cuda/processingunit.cpp:61-97 | tuned lanes per block are at most the maximum and are the minimum or a power of two |
| `Tuning.TunedJobsRange` | lib/argon2-cuda/processingunit.cpp:99-137 | tuned jobs per block are at most the maximum and are the minimum or a power of two |
| `Tuning.JobsTunedOnlyWhenLanesSaturate` | lib/argon2-cuda/processingunit.cpp:99-102 | the jobs phase does not change lanes; jobs move off the minimum only if the lanes equal their maximum and the jobs maximum exceeds the minimum and is a power of two |
| `Tuning.FixedLanesStillTuneJobs` | lib/argon2-cuda/processingunit.cpp:99-113 | when minLanes == maxLanes, the lane search is skipped and the jobs search runs at that lane value |
| `Tuning.LanesCanFallBelowMinimum` | lib/argon2-cuda/processingunit.cpp:68 | with bounds lanes [2, 4], a runner that times 1 lane fastest makes the tuned lanes 1, below the minimum |
| `Tuning.TunedLanesFastest` | lib/argon2-cuda/processingunit.cpp:73-91 | when a lane candidate succeeded, the chosen lanes were timed successfully at the minimum jobs per block and no slower than any other successful lane candidate |
| `Tuning.TunedJobsFastest` | lib/argon2-cuda/processingunit.cpp:107-131 | when the jobs search runs and a job candidate succeeded, the chosen jobs per block were timed successfully at the tuned lanes per block and no slower than any other successful job candidate |
| `Tuning.LaneLaunchOrder` | lib/argon2-cuda/processingunit.cpp:68-73 | the lane phase dispatches (1, minJobs), (2, minJobs), (4, minJobs), ... all within the lane maximum |
| `Tuning.JobLaunchOrder` | lib/argon2-cuda/processingunit.cpp:108-113 | the jobs phase dispatches (lanes, 1), (lanes, 2), (lanes, 4), ... at the tuned lanes, all within the jobs maximum |
| `Cuda.DeviceContext.SetCudaDevice` | lib/argon2-cuda/processingunit.cpp:28-35 | afterwards the given device is current; a device switch happens only if another device was current |
| `Cuda.ReadOverrides` | lib/argon2-cuda/processingunit.cpp:164-166 | unset `A2_LPB` and `A2_JPB` read as -1, and an unset `A2_FORCE` reads as off |
| `Cuda.ProcessingUnit.constructor` | lib/argon2-cuda/processingunit.cpp:42-138 | binds the device; the tuned geometry is the tuning specification's and keeps the range invariant; the dispatched geometries are the lane trials followed by the job trials |
| `Cuda.ProcessingUnit.TuneLanes` | lib/argon2-cuda/processingunit.cpp:61-97 | the lanes per block become the lane search's choice (the fastest successful power of two, or the minimum when the search does not run or its first candidate fails, since the initial best time is infinite and any successful time beats it); the lane trials are logged at the minimum jobs per block |
| `Cuda.ProcessingUnit.TuneJobs` | lib/argon2-cuda/processingunit.cpp:99-137 | the jobs per block become the job search's choice, a search that runs only when the tuned lanes equal their maximum; the job trials are logged at the tuned lanes per block |
| `Cuda.ProcessingUnit.BeginProcessing` | lib/argon2-cuda/processingunit.cpp:159-198 | rebinds the device, dispatches exactly one geometry (the resolution of the tuned geometry under the environment's overrides), keeps each dispatched dimension between 1 and its maximum, and leaves the tuned geometry unchanged |
| `Cuda.NoOverridesKeepTuned` | lib/argon2-cuda/processingunit.cpp:164-187 | an empty environment dispatches the tuned geometry |
| `Cuda.ForceAloneGivesMaxima` | lib/argon2-cuda/processingunit.cpp:176-179 | `A2_FORCE=1` alone dispatches (maxLanes, maxJobs) |
| `Cuda.ForceWithEmptyLanesKeepsTunedLanes` | lib/argon2-cuda/processingunit.cpp:164-181 | with `A2_FORCE=1` and an empty `A2_LPB`, lanes keep the tuned value (the empty string reads as 0) and jobs go to the maximum |
| `Cuda.LanesOverrideClamped` | lib/argon2-cuda/processingunit.cpp:180-183 | a positive numeric `A2_LPB` is used as given within the bounds and clamped to the nearer bound outside them |
| `Cuda.MalformedJobsIgnored` | lib/argon2-cuda/processingunit.cpp:184-187 | a malformed `A2_JPB` such as "8x" is ignored, and the tuned geometry is dispatched |

## Left out

- `setPassword`, `getHash`, `endProcessing` and the constructor's loop that pre-fills every job slot (lines 57-59, 140-157, 201-204): they only pass data between the external Argon2 parameter functions and the runner's memory, and the code does not show the byte-level behaviour of either. The batch size and the `bySegment`/`precomputeRefs` flags only matter to them and to the runner, so they are not modelled.
- CUDA errors outside tuning: a failing `cudaGetDevice`/`cudaSetDevice`, or a failing dispatch in `beginProcessing`, throws a fatal exception. These paths are not modelled. During tuning, a failure is the `Fail` trial outcome.
- Kernel times are natural numbers rather than floats. The initial best time, infinity, is `None`. NaN times are not modelled.
- Debug output: the `#ifndef NDEBUG` logging blocks of the tuning code (lines 63-65, 76-79, 83-86, 93-96, 103-105, 116-119, 123-126, 133-136) and the `A2_DEBUG` report (lines 189-195) only write to standard error and are not modelled.
- `Cuda.ProcessingUnit.constructor`: requires both maxima below 2^31 (`Geometry.Bounds.Valid`). With a maximum of exactly 2^31, the uint32 `lpb *= 2` wraps to 0 and the loop goes on to dispatch zero lanes (line 73): a CUDA error there ends the search (line 80), while a successful zero-lane dispatch makes the loop run forever. Below 2^31 the model's unbounded doubling is exact, and so are the `(int)` casts of the bounds at lines 168-171. It also requires the bounds to be inclusive ranges whose minima are at least 1 and at most the maxima. The code does not rely on this: with a minimum above its maximum, neither tuning guard holds (lines 61 and 100-102), nothing is tuned, and a positive override is clamped to the minimum by `std::max` (lines 181 and 185); a minimum of 0 is used as given. Those bounds are not modelled.
- `Env.EnvInt`: `strtol` overflow (saturation at `LONG_MIN`/`LONG_MAX`) and the truncating `long` to `int` cast are not modelled. The parsed value is an unbounded integer.
- `Env.EnvOn`: `atoi` overflow, which is undefined behaviour in C, is not modelled.
- The runner is an oracle that gives each (phase, geometry) pair a fixed outcome. Timings that depend on anything else, such as repeated runs within one phase, do not arise in the code.
- The environment is a `map<string, string>`, and `std::getenv` is a lookup in it (`Env.Getenv`); nothing else about the process environment is modelled.
- Concurrent use of the device by other units is left out. The current device is an explicit object passed to each operation.

=== FILE: bits.dfy ===
/** Unsigned 32-bit arithmetic needed by the power-of-two test of the
    processing unit, written out on natural numbers. */
module Bits {

  const UINT32_LIMIT: nat := 0x1_0000_0000

  /** A value of C's `std::uint32_t`. */
  type uint32 = x: nat | x < UINT32_LIMIT

  /** Bitwise AND of two naturals, bit by bit from the least significant. */
  function BitAnd(a: nat, b: nat): (r: nat)
    ensures r <= a && r <= b
    decreases a
  {
    if a == 0 || b == 0 then 0
    else 2 * BitAnd(a / 2, b / 2) + (if a % 2 == 1 && b % 2 == 1 then 1 else 0)
  }

  /** `x - 1` in uint32 arithmetic, which C defines modulo 2^32. */
  function Pred32(x: uint32): (r: uint32)
    ensures r == (x as int - 1) % UINT32_LIMIT
  {
    if x == 0 then UINT32_LIMIT - 1 else x - 1
  }

  /** `isPowerOfTwo`'s test `(x & (x - 1)) == 0` on a uint32; it holds for 0 too. */
  predicate IsPowerOfTwo(x: uint32)
  {
    BitAnd(x, Pred32(x)) == 0
  }

  /** 2^k. */
  function Pow2(k: nat): (r: nat)
    ensures r >= 1
  {
    if k == 0 then 1 else 2 * Pow2(k - 1)
  }

  /** Reference definition: n is 1 or twice a power of two. */
  predicate IsPow2(n: nat)
    decreases n
  {
    n == 1 || (n >= 2 && n % 2 == 0 && IsPow2(n / 2))
  }

  lemma {:induction false} BitAndSelf(a: nat)
    ensures BitAnd(a, a) == a
    decreases a
  {
    if a != 0 {
      BitAndSelf(a / 2);
    }
  }

  /** The bit trick means what its name says, except that it also accepts 0. */
  lemma {:induction false} PowerOfTwoMeaning(x: uint32)
    ensures IsPowerOfTwo(x) <==> x == 0 || IsPow2(x)
    decreases x
  {
    if x == 0 || x == 1 {
    } else if x % 2 == 1 {
      // x - 1 only clears the low bit, so x & (x - 1) keeps the upper bits of x
      assert (x - 1) / 2 == x / 2;
      BitAndSelf(x / 2);
      assert BitAnd(x, x - 1) == 2 * BitAnd(x / 2, x / 2);
    } else {
      var h: uint32 := x / 2;
      assert (x - 1) / 2 == h - 1 == Pred32(h);
      assert BitAnd(x, x - 1) == 2 * BitAnd(h, Pred32(h));
      PowerOfTwoMeaning(h);
    }
  }

  /** Zero passes the bit test although it is not a power of two. */
  lemma ZeroPassesTest()
    ensures IsPowerOfTwo(0) && !IsPow2(0)
  {
  }

  lemma {:induction false} Pow2IsPow2(k: nat)
    ensures IsPow2(Pow2(k))
  {
    if k > 0 {
      Pow2IsPow2(k - 1);
      assert Pow2(k) / 2 == Pow2(k - 1);
    }
  }

  /** Doubling from a power of two below a power-of-two bound lands on the
      bound exactly: the next candidate is the bound or still fits under it. */
  lemma {:induction false} Pow2StepsOnto(c: nat, m: nat)
    requires IsPow2(c) && IsPow2(m) && c <= m
    ensures c == m || 2 * c <= m
    decreases c
  {
    if c >= 2 {
      Pow2StepsOnto(c / 2, m / 2);
    }
  }
}

=== FILE: env.dfy ===
/** The two environment readers of the processing unit, `env_int` and
    `env_on`, over C's base-10 `strtol` and `atoi`. The environment itself
    is a map from names to values; a value is a C string, so an embedded
    NUL character ends it. */
module Env {
  import opened Wrappers

  /** `std::getenv`: the value of a variable, if it is set. */
  function Getenv(env: map<string, string>, name: string): Option<string>
  {
    if name in env then Some(env[name]) else None
  }

  /** `isspace` in the C locale: space, \t, \n, \v, \f, \r. */
  predicate IsSpace(ch: char)
  {
    ch == ' ' || '\t' <= ch <= '\r'
  }

  predicate IsDigit(ch: char)
  {
    '0' <= ch <= '9'
  }

  function DigitValue(ch: char): (d: nat)
    requires IsDigit(ch)
    ensures d < 10
  {
    ch as int - '0' as int
  }

  predicate AllDigits(s: string)
  {
    forall k :: 0 <= k < |s| ==> IsDigit(s[k])
  }

  predicate AllSpaces(s: string)
  {
    forall k :: 0 <= k < |s| ==> IsSpace(s[k])
  }

  /** First index at or after i that does not hold white space. */
  function SkipSpaces(s: string, i: nat): (j: nat)
    requires i <= |s|
    ensures i <= j <= |s|
    ensures forall k :: i <= k < j ==> IsSpace(s[k])
    ensures j == |s| || !IsSpace(s[j])
    decreases |s| - i
  {
    if i < |s| && IsSpace(s[i]) then SkipSpaces(s, i + 1) else i
  }

  /** First index at or after i that does not hold a decimal digit. */
  function DigitsEnd(s: string, i: nat): (j: nat)
    requires i <= |s|
    ensures i <= j <= |s|
    ensures forall k :: i <= k < j ==> IsDigit(s[k])
    ensures j == |s| || !IsDigit(s[j])
    decreases |s| - i
  {
    if i < |s| && IsDigit(s[i]) then DigitsEnd(s, i + 1) else i
  }

  /** Value of a string of decimal digits, most significant first. */
  function DigitsValue(ds: string): nat
    requires AllDigits(ds)
  {
    if ds == [] then 0 else 10 * DigitsValue(ds[..|ds| - 1]) + DigitValue(ds[|ds| - 1])
  }

  /** What `strtol` returns, and where its end pointer is left. */
  datatype Conversion = Conversion(value: int, end: nat)

  /** Base-10 `strtol`: leading white space, an optional sign, then decimal
      digits; with no digit there is no conversion, the value is 0 and the
      end pointer stays at the start of the string. */
  function Strtol(s: string): (c: Conversion)
    ensures c.end <= |s|
    ensures c.end == 0 ==> c.value == 0
    ensures c.end > 0 ==> IsDigit(s[c.end - 1]) && (c.end == |s| || !IsDigit(s[c.end]))
  {
    var i := SkipSpaces(s, 0);
    var negative := i < |s| && s[i] == '-';
    var j := if i < |s| && (s[i] == '+' || s[i] == '-') then i + 1 else i;
    var k := DigitsEnd(s, j);
    if k == j then Conversion(0, 0)
    else
      var magnitude: int := DigitsValue(s[j..k]);
      Conversion(if negative then -magnitude else magnitude, k)
  }

  /** `*end == '\0'`: the conversion consumed the whole C string. */
  predicate AtEnd(s: string, i: nat)
  {
    i >= |s| || s[i] == '\0'
  }

  /** `env_int`: the parsed value when the whole value is one base-10
      number, the default when the variable is unset or anything follows
      the number. */
  function EnvInt(v: Option<string>, default: int): (r: int)
    ensures v.None? ==> r == default
    ensures v.Some? && !AtEnd(v.value, Strtol(v.value).end) ==> r == default
  {
    match v
    case None => default
    case Some(s) =>
      var c := Strtol(s);
      if AtEnd(s, c.end) then c.value else default
  }

  /** `env_on`: the default when unset, otherwise whether the leading
      decimal number (`atoi`, 0 when there is none) is nonzero. */
  function EnvOn(v: Option<string>, default: bool): (r: bool)
    ensures v.None? ==> r == default
  {
    match v
    case None => default
    case Some(s) => Strtol(s).value != 0
  }

  function DigitChar(d: nat): (ch: char)
    requires d < 10
    ensures IsDigit(ch) && DigitValue(ch) == d
  {
    ('0' as int + d) as char
  }

  /** Canonical decimal rendering of a natural number. */
  function NatDecimal(n: nat): (s: string)
    ensures |s| >= 1 && AllDigits(s)
    decreases n
  {
    if n < 10 then [DigitChar(n)] else NatDecimal(n / 10) + [DigitChar(n % 10)]
  }

  /** Canonical decimal rendering of an integer, with '-' when negative. */
  function Decimal(n: int): (s: string)
    ensures |s| >= 1 && (IsDigit(s[0]) || s[0] == '-')
  {
    if n < 0 then "-" + NatDecimal(-n) else NatDecimal(n)
  }

  lemma {:induction false} DigitsValueOfDecimal(n: nat)
    ensures DigitsValue(NatDecimal(n)) == n
    decreases n
  {
    if n >= 10 {
      var ds := NatDecimal(n);
      assert ds[..|ds| - 1] == NatDecimal(n / 10);
      DigitsValueOfDecimal(n / 10);
    }
  }

  lemma {:induction false} SkipSpacesTo(s: string, i: nat, j: nat)
    requires i <= j <= |s|
    requires forall k :: i <= k < j ==> IsSpace(s[k])
    requires j == |s| || !IsSpace(s[j])
    ensures SkipSpaces(s, i) == j
    decreases j - i
  {
    if i < j {
      SkipSpacesTo(s, i + 1, j);
    }
  }

  lemma {:induction false} DigitsEndAt(s: string, i: nat, j: nat)
    requires i <= j <= |s|
    requires forall k :: i <= k < j ==> IsDigit(s[k])
    requires j == |s| || !IsDigit(s[j])
    ensures DigitsEnd(s, i) == j
    decreases j - i
  {
    if i < j {
      DigitsEndAt(s, i + 1, j);
    }
  }

  /** `strtol` on white space, an optional sign, then the digits s[j..k]
      followed by a non-digit or the end. */
  lemma StrtolParts(s: string, i: nat, j: nat, k: nat)
    requires i <= j < k <= |s|
    requires forall q :: 0 <= q < i ==> IsSpace(s[q])
    requires j == i || (j == i + 1 && (s[i] == '-' || s[i] == '+'))
    requires forall q :: j <= q < k ==> IsDigit(s[q])
    requires k == |s| || !IsDigit(s[k])
    ensures Strtol(s) == Conversion(if j == i + 1 && s[i] == '-' then 0 - DigitsValue(s[j..k]) else DigitsValue(s[j..k]), k)
  {
    SkipSpacesTo(s, 0, i);
    DigitsEndAt(s, j, k);
  }

  /** `strtol` reads back the canonical rendering of any integer, after
      any leading white space, and stops right after it. */
  lemma StrtolDecimal(ws: string, n: int, tail: string)
    requires AllSpaces(ws)
    requires tail == [] || !IsDigit(tail[0])
    ensures Strtol(ws + Decimal(n) + tail) == Conversion(n, |ws| + |Decimal(n)|)
  {
    var d := Decimal(n);
    var s := ws + d + tail;
    var m: nat := if n < 0 then -n else n;
    var ds := NatDecimal(m);
    var j := if n < 0 then |ws| + 1 else |ws|;
    var k := |ws| + |d|;
    assert d == if n < 0 then "-" + ds else ds;
    assert forall q :: 0 <= q < |ws| ==> s[q] == ws[q];
    assert s[|ws|] == d[0];
    assert s[j..k] == ds;
    assert forall q :: j <= q < k ==> s[q] == ds[q - j];
    assert k < |s| ==> s[k] == tail[0];
    StrtolParts(s, |ws|, j, k);
    DigitsValueOfDecimal(m);
  }

  /** A '+' sign is accepted and leaves the number positive. */
  lemma StrtolPlusSign(ws: string, n: nat, tail: string)
    requires AllSpaces(ws)
    requires tail == [] || !IsDigit(tail[0])
    ensures Strtol(ws + "+" + NatDecimal(n) + tail) == Conversion(n, |ws| + 1 + |NatDecimal(n)|)
  {
    var ds := NatDecimal(n);
    var s := ws + "+" + ds + tail;
    var j := |ws| + 1;
    var k := j + |ds|;
    assert forall q :: 0 <= q < |ws| ==> s[q] == ws[q];
    assert s[|ws|] == '+';
    assert s[j..k] == ds;
    assert forall q :: j <= q < k ==> s[q] == ds[q - j];
    assert k < |s| ==> s[k] == tail[0];
    StrtolParts(s, |ws|, j, k);
    DigitsValueOfDecimal(n);
  }

  /** `env_int` accepts the rendering of any integer, with leading white
      space allowed. */
  lemma EnvIntRoundTrip(ws: string, n: int, default: int)
    requires AllSpaces(ws)
    ensures EnvInt(Some(ws + Decimal(n)), default) == n
  {
    StrtolDecimal(ws, n, []);
    assert ws + Decimal(n) + [] == ws + Decimal(n);
  }

  /** Anything after the number other than the end of the string makes
      `env_int` fall back to the default. */
  lemma EnvIntRejectsTrailing(n: int, tail: string, default: int)
    requires tail != [] && !IsDigit(tail[0]) && tail[0] != '\0'
    ensures EnvInt(Some(Decimal(n) + tail), default) == default
  {
    var s := Decimal(n) + tail;
    StrtolDecimal([], n, tail);
    assert [] + Decimal(n) + tail == s;
    assert s[|Decimal(n)|] == tail[0];
  }

  /** A value with no digit right after its white space s[..i] and its
      optional sign s[i..j] is not a conversion: `strtol` gives 0 and leaves
      the end pointer at the start, whatever follows. */
  lemma StrtolNoDigits(s: string, i: nat, j: nat)
    requires i <= j <= |s|
    requires forall q :: 0 <= q < i ==> IsSpace(s[q])
    requires i == |s| || !IsSpace(s[i])
    requires j == i || (j == i + 1 && (s[i] == '+' || s[i] == '-'))
    requires j == i && i < |s| ==> s[i] != '+' && s[i] != '-'
    requires j == |s| || !IsDigit(s[j])
    ensures Strtol(s) == Conversion(0, 0)
  {
    SkipSpacesTo(s, 0, i);
    DigitsEndAt(s, j, j);
  }

  /** The empty string is fully consumed by no conversion, so `env_int`
      reads it as 0; white space alone or a lone sign gives the default. */
  lemma EnvIntEdgeCases(default: int)
    ensures EnvInt(Some(""), default) == 0
    ensures EnvInt(Some(" "), default) == default
    ensures EnvInt(Some("-"), default) == default
  {
    assert SkipSpaces(" ", 1) == 1;
    assert SkipSpaces(" ", 0) == 1;
    assert DigitsEnd("-", 1) == 1;
  }

  /** `env_on` reads only the leading number: any rendering of n followed
      by anything that is not a digit is on exactly when n is nonzero. */
  lemma EnvOnLeadingNumber(ws: string, n: int, tail: string, default: bool)
    requires AllSpaces(ws)
    requires tail == [] || !IsDigit(tail[0])
    ensures EnvOn(Some(ws + Decimal(n) + tail), default) == (n != 0)
  {
    StrtolDecimal(ws, n, tail);
  }

  /** Words are off: a set value that does not start with a number (no
      digit after its white space s[..i] and optional sign s[i..j]) turns
      the flag off whatever the default, and `env_int` ignores it unless the
      value is empty. */
  lemma WordsAreOff(s: string, i: nat, j: nat, dflag: bool, dint: int)
    requires i <= j <= |s|
    requires forall q :: 0 <= q < i ==> IsSpace(s[q])
    requires i == |s| || !IsSpace(s[i])
    requires j == i || (j == i + 1 && (s[i] == '+' || s[i] == '-'))
    requires j == i && i < |s| ==> s[i] != '+' && s[i] != '-'
    requires j == |s| || !IsDigit(s[j])
    ensures !EnvOn(Some(s), dflag)
    ensures s != [] && s[0] != '\0' ==> EnvInt(Some(s), dint) == dint
  {
    StrtolNoDigits(s, i, j);
  }

  /** Junk after the white space or the sign still means no number. */
  lemma JunkAfterSignOrSpace(dint: int)
    ensures EnvInt(Some("-x5"), dint) == dint
    ensures EnvInt(Some("  x5"), dint) == dint
    ensures !EnvOn(Some("+-1"), true)
    ensures !EnvOn(Some(" yes1"), true)
  {
    WordsAreOff("-x5", 0, 1, true, dint);
    WordsAreOff("  x5", 2, 2, true, dint);
    WordsAreOff("+-1", 0, 1, true, dint);
    WordsAreOff(" yes1", 1, 1, true, dint);
  }
}

=== FILE: geometry.dfy ===
/** Launch geometry and the per-dispatch override resolution of
    `ProcessingUnit::beginProcessing`. */
module Geometry {

  /** Lanes per block and jobs per block of one kernel launch. */
  datatype Geometry = Geometry(lanes: nat, jobs: nat)

  /** The inclusive bounds the kernel runner reports. Maxima stay below
      2^31 so that the constructor's uint32 `lpb *= 2` / `jpb *= 2` doubling
      and `beginProcessing`'s (int) casts of the bounds are exact. */
  datatype Bounds = Bounds(minLanes: nat, maxLanes: nat, minJobs: nat, maxJobs: nat)
  {
    predicate Valid()
    {
      1 <= minLanes <= maxLanes < 0x8000_0000 && 1 <= minJobs <= maxJobs < 0x8000_0000
    }

    predicate Contains(g: Geometry)
    {
      minLanes <= g.lanes <= maxLanes && minJobs <= g.jobs <= maxJobs
    }
  }

  /** The three environment-style overrides: lanes per block and jobs per
      block (unset is -1) and the force-maximum flag. */
  datatype Overrides = Overrides(lanes: int, jobs: int, force: bool)

  function Min(a: int, b: int): int { if a <= b then a else b }
  function Max(a: int, b: int): int { if a >= b then a else b }

  /** One dimension of the resolution: under force a negative override
      stands for the maximum; then a positive override is clamped into
      [lo, hi] and anything else keeps the tuned value. */
  function ResolveDim(tuned: nat, lo: nat, hi: nat, env: int, force: bool): (r: nat)
    ensures env == 0 ==> r == tuned
    ensures env < 0 && !force ==> r == tuned
    ensures 1 <= lo <= hi && env < 0 && force ==> r == hi
    ensures 1 <= lo <= hi && env > 0 ==> lo <= r <= hi
    ensures 1 <= lo <= hi && lo <= env <= hi ==> r == env
    ensures 1 <= lo <= hi && 0 < env < lo ==> r == lo
    ensures 1 <= lo <= hi && env > hi ==> r == hi
  {
    var env' := if force && env < 0 then hi as int else env;
    if env' > 0 then Max(lo, Min(hi, env')) else tuned
  }

  /** The geometry a dispatch uses: each dimension resolved on its own. */
  function Resolve(tuned: Geometry, b: Bounds, o: Overrides): (g: Geometry)
    ensures b.Valid() && b.Contains(tuned) ==> b.Contains(g)
    ensures b.Valid() && o.lanes > 0 && o.jobs > 0 ==> b.Contains(g)
    ensures b.Valid() && 1 <= tuned.lanes <= b.maxLanes && 1 <= tuned.jobs <= b.maxJobs ==>
      1 <= g.lanes <= b.maxLanes && 1 <= g.jobs <= b.maxJobs
    ensures b.Valid() && o.force && o.lanes < 0 && o.jobs < 0 ==> g == Geometry(b.maxLanes, b.maxJobs)
    ensures o.lanes == 0 && o.jobs == 0 ==> g == tuned
    ensures !o.force && o.lanes <= 0 && o.jobs <= 0 ==> g == tuned
  {
    Geometry(ResolveDim(tuned.lanes, b.minLanes, b.maxLanes, o.lanes, o.force),
             ResolveDim(tuned.jobs, b.minJobs, b.maxJobs, o.jobs, o.force))
  }

  /** The lanes override never affects the jobs per block, and conversely. */
  lemma ResolveIndependent(tuned: Geometry, b: Bounds, o: Overrides, lanes': int, jobs': int)
    ensures Resolve(tuned, b, o.(lanes := lanes')).jobs == Resolve(tuned, b, o).jobs
    ensures Resolve(tuned, b, o.(jobs := jobs')).lanes == Resolve(tuned, b, o).lanes
  {
  }

  /** A zero override is ignored rather than clamped: with bounds [1, 16] it
      keeps the tuned value instead of giving 1, with or without force. */
  lemma ZeroOverrideKeepsTuned(tuned: Geometry, force: bool)
    ensures Resolve(tuned, Bounds(1, 16, 1, 16), Overrides(0, 0, force)) == tuned
  {
  }

  /** Resolution does not repair a tuned value that lies outside the bounds:
      without a positive or forced override it is dispatched as it is. */
  lemma TunedOutsideBoundsKept()
    ensures var b := Bounds(4, 8, 1, 1);
      b.Valid() && Resolve(Geometry(1, 1), b, Overrides(-1, -1, false)) == Geometry(1, 1) &&
      !b.Contains(Geometry(1, 1))
  {
  }
}

=== FILE: processing_unit.dfy ===
/** The CUDA processing unit: device binding, construction-time tuning of
    the launch geometry, and the geometry each dispatch uses. */
module Cuda {
  import opened Bits
  import opened Geometry
  import opened Env
  import opened Tuning

  /** The calling thread's current CUDA device, as `cudaGetDevice` and
      `cudaSetDevice` see it. */
  class DeviceContext {
    var current: int
    /** How many times `cudaSetDevice` has been called. */
    ghost var switches: nat

    constructor (current: int)
      ensures this.current == current && switches == 0
    {
      this.current := current;
      switches := 0;
    }

    /** `setCudaDevice`: switch only when another device is current, so
        binding twice to the same device costs one switch. */
    method SetCudaDevice(deviceIndex: nat)
      modifies this
      ensures current == deviceIndex
      ensures switches == old(switches) + (if old(current) == deviceIndex then 0 else 1)
    {
      var currentIndex := current;
      if currentIndex != deviceIndex {
        current := deviceIndex;
        switches := switches + 1;
      }
    }
  }

  const LPB_VAR := "A2_LPB"
  const JPB_VAR := "A2_JPB"
  const FORCE_VAR := "A2_FORCE"

  /** The overrides `beginProcessing` reads: unset or malformed numbers
      are -1, an unset flag is off. */
  function ReadOverrides(env: map<string, string>): (o: Overrides)
    ensures LPB_VAR !in env ==> o.lanes == -1
    ensures JPB_VAR !in env ==> o.jobs == -1
    ensures FORCE_VAR !in env ==> !o.force
  {
    Overrides(EnvInt(Getenv(env, LPB_VAR), -1),
              EnvInt(Getenv(env, JPB_VAR), -1),
              EnvOn(Getenv(env, FORCE_VAR), false))
  }

  class ProcessingUnit {
    const deviceIndex: nat
    const bounds: Bounds
    var bestLanesPerBlock: nat
    var bestJobsPerBlock: nat
    /** Every geometry handed to the kernel runner's `run`, in order. */
    ghost var launches: seq<Geometry>

    /** The tuned geometry stays within the maxima and is the minimum or a
        power of two in each dimension. */
    ghost predicate Valid()
      reads this
    {
      bounds.Valid() &&
      bestLanesPerBlock <= bounds.maxLanes &&
      (bestLanesPerBlock == bounds.minLanes || IsPow2(bestLanesPerBlock)) &&
      bestJobsPerBlock <= bounds.maxJobs &&
      (bestJobsPerBlock == bounds.minJobs || IsPow2(bestJobsPerBlock))
    }

    function TunedGeometry(): Geometry
      reads this
    {
      Geometry(bestLanesPerBlock, bestJobsPerBlock)
    }

    /** Binds the device, then tunes lanes per block and, when the lanes
        reached their maximum, jobs per block. */
    constructor (deviceIndex: nat, bounds: Bounds, runner: Runner, ctx: DeviceContext)
      requires bounds.Valid()
      modifies ctx
      ensures this.deviceIndex == deviceIndex && this.bounds == bounds
      ensures ctx.current == deviceIndex
      ensures Valid()
      ensures TunedGeometry() == Tuned(bounds, runner)
      ensures launches == TuningLaunches(bounds, runner)
    {
      this.deviceIndex := deviceIndex;
      this.bounds := bounds;
      bestLanesPerBlock := bounds.minLanes;
      bestJobsPerBlock := bounds.minJobs;
      launches := [];
      new;
      ctx.SetCudaDevice(deviceIndex);
      TuneLanes(runner);
      assert launches == LaneLaunches(bounds, runner);
      TuneJobs(runner);
      assert launches == TuningLaunches(bounds, runner);
    }

    /** The lane phase: a doubling search over lanes per block at the
        current jobs per block, run only when the lane maximum exceeds the
        minimum and passes the power-of-two test. */
    method TuneLanes(runner: Runner)
      requires bounds.Valid()
      requires bestLanesPerBlock == bounds.minLanes && bestJobsPerBlock == bounds.minJobs
      modifies this`bestLanesPerBlock, this`launches
      ensures bestLanesPerBlock == TunedLanes(bounds, runner)
      ensures bestLanesPerBlock <= bounds.maxLanes
      ensures bestLanesPerBlock == bounds.minLanes || IsPow2(bestLanesPerBlock)
      ensures launches == old(launches) + LaneLaunches(bounds, runner)
    {
      if bounds.maxLanes > bounds.minLanes && IsPowerOfTwo(bounds.maxLanes) {
        var best;
        ghost var tried;
        best, tried := DoublingSearch(bounds.maxLanes, LaneTrial(runner, bestJobsPerBlock), bestLanesPerBlock);
        bestLanesPerBlock := best;
        launches := launches + AtJobs(tried, bestJobsPerBlock);
      }
    }

    /** The jobs phase: a doubling search over jobs per block at the tuned
        lanes per block, run only when those lanes equal their maximum and
        the jobs maximum exceeds the minimum and passes the power-of-two
        test. */
    method TuneJobs(runner: Runner)
      requires bounds.Valid()
      requires bestLanesPerBlock == TunedLanes(bounds, runner) && bestJobsPerBlock == bounds.minJobs
      requires bestLanesPerBlock <= bounds.maxLanes
      requires bestLanesPerBlock == bounds.minLanes || IsPow2(bestLanesPerBlock)
      modifies this`bestJobsPerBlock, this`launches
      ensures TunedGeometry() == Tuned(bounds, runner)
      ensures Valid()
      ensures launches == old(launches) + JobLaunches(bounds, runner)
    {
      if bestLanesPerBlock == bounds.maxLanes && bounds.maxJobs > bounds.minJobs
         && IsPowerOfTwo(bounds.maxJobs) {
        var best;
        ghost var tried;
        best, tried := DoublingSearch(bounds.maxJobs, JobTrial(runner, bestLanesPerBlock), bestJobsPerBlock);
        bestJobsPerBlock := best;
        launches := launches + AtLanes(tried, bestLanesPerBlock);
      }
    }

    /** Rebinds the device and dispatches one batch with the geometry that
        the overrides in `env` resolve to; the tuned geometry is kept. */
    method BeginProcessing(env: map<string, string>, ctx: DeviceContext) returns (g: Geometry)
      requires Valid()
      modifies this`launches, ctx
      ensures ctx.current == deviceIndex
      ensures g == Resolve(TunedGeometry(), bounds, ReadOverrides(env))
      ensures 1 <= g.lanes <= bounds.maxLanes && 1 <= g.jobs <= bounds.maxJobs
      ensures launches == old(launches) + [g]
      ensures Valid()
    {
      ctx.SetCudaDevice(deviceIndex);
      g := Resolve(TunedGeometry(), bounds, ReadOverrides(env));
      launches := launches + [g];
    }
  }

  /** With no override variable set, a dispatch uses the tuned geometry. */
  lemma NoOverridesKeepTuned(tuned: Geometry, b: Bounds)
    ensures Resolve(tuned, b, ReadOverrides(map[])) == tuned
  {
  }

  /** A2_FORCE=1 alone dispatches at both maxima. */
  lemma ForceAloneGivesMaxima(tuned: Geometry, b: Bounds)
    requires b.Valid()
    ensures Resolve(tuned, b, ReadOverrides(map[FORCE_VAR := "1"])) == Geometry(b.maxLanes, b.maxJobs)
  {
    EnvOnLeadingNumber([], 1, [], false);
    assert [] + Decimal(1) + [] == "1";
  }

  /** An empty A2_LPB parses as 0, and 0 is ignored even under force: the
      lanes keep their tuned value while the jobs go to their maximum. */
  lemma ForceWithEmptyLanesKeepsTunedLanes(tuned: Geometry, b: Bounds)
    requires b.Valid()
    ensures Resolve(tuned, b, ReadOverrides(map[FORCE_VAR := "1", LPB_VAR := ""])) ==
      Geometry(tuned.lanes, b.maxJobs)
  {
    EnvOnLeadingNumber([], 1, [], false);
    assert [] + Decimal(1) + [] == "1";
    EnvIntEdgeCases(-1);
  }

  /** A numeric A2_LPB is used as given when it lies within the bounds and
      clamped to the nearer bound otherwise. */
  lemma LanesOverrideClamped(tuned: Geometry, b: Bounds, n: int)
    requires b.Valid() && n > 0
    ensures var lanes := Resolve(tuned, b, ReadOverrides(map[LPB_VAR := Decimal(n)])).lanes;
      lanes == (if n < b.minLanes then b.minLanes else if n > b.maxLanes then b.maxLanes else n)
  {
    EnvIntRoundTrip([], n, -1);
    assert [] + Decimal(n) == Decimal(n);
  }

  /** A malformed A2_JPB such as "8x" is ignored, not clamped. */
  lemma MalformedJobsIgnored(tuned: Geometry, b: Bounds)
    ensures Resolve(tuned, b, ReadOverrides(map[JPB_VAR := "8x"])) == tuned
  {
    EnvIntRejectsTrailing(8, "x", -1);
    assert Decimal(8) + "x" == "8x";
  }
}

=== FILE: tuning.dfy ===
/** The doubling search that the processing unit runs once per geometry
    dimension when it is constructed: candidates 1, 2, 4, ... up to the
    dimension's maximum, each timed by one kernel dispatch, keeping the
    fastest; the first failing dispatch ends the search. */
module Tuning {
  import opened Wrappers
  import opened Bits
  import opened Geometry

  /** Outcome of one timed dispatch: an elapsed time, or a device error. */
  datatype Trial = Ok(time: nat) | Fail

  /** State of a search: the best candidate so far and its time; `None`
      stands for the initial best time, infinity. */
  datatype Scan = Scan(best: nat, bestTime: Option<nat>)

  /** A measured time replaces the best only when it is strictly faster. */
  predicate Improves(t: nat, bestTime: Option<nat>)
  {
    bestTime.None? || t < bestTime.value
  }

  /** Result of the search that starts at candidate 2^e in state s. */
  function Search(e: nat, max: nat, trial: nat -> Trial, s: Scan): Scan
    decreases max - Pow2(e)
  {
    if Pow2(e) > max then s
    else match trial(Pow2(e))
      case Fail => s
      case Ok(t) =>
        Search(e + 1, max, trial, if Improves(t, s.bestTime) then Scan(Pow2(e), Some(t)) else s)
  }

  /** The candidates dispatched by that search, in order; a failing one is
      the last. */
  function Tried(e: nat, max: nat, trial: nat -> Trial): seq<nat>
    decreases max - Pow2(e)
  {
    if Pow2(e) > max then []
    else match trial(Pow2(e))
      case Fail => [Pow2(e)]
      case Ok(_) => [Pow2(e)] + Tried(e + 1, max, trial)
  }

  /** The best candidate of a whole search that starts from `init`. */
  function SearchBest(max: nat, trial: nat -> Trial, init: nat): nat
  {
    Search(0, max, trial, Scan(init, None)).best
  }

  /** The constructor's doubling loop (`lpb *= 2`, `jpb *= 2`), shared by both dimensions. */
  method DoublingSearch(max: nat, trial: nat -> Trial, init: nat) returns (best: nat, ghost tried: seq<nat>)
    ensures best == SearchBest(max, trial, init)
    ensures tried == Tried(0, max, trial)
    ensures best == init || (IsPow2(best) && best <= max && trial(best).Ok?)
  {
    best := init;
    var bestTime: Option<nat> := None;
    var c := 1;
    ghost var e := 0;
    tried := [];
    assert tried + Tried(0, max, trial) == Tried(0, max, trial);
    while c <= max
      invariant c == Pow2(e)
      invariant SearchFromHere(e, max, trial, init, Scan(best, bestTime), tried)
      decreases max - c
    {
      var outcome := trial(c);
      ghost var before := Scan(best, bestTime);
      if outcome.Fail? {
        SearchStep(e, max, trial, init, before, tried);
        tried := tried + [c];
        break;
      }
      if Improves(outcome.time, bestTime) {
        bestTime := Some(outcome.time);
        best := c;
      }
      SearchStep(e, max, trial, init, before, tried);
      tried := tried + [c];
      c := c * 2;
      e := e + 1;
    }
    if c > max {
      SearchStep(e, max, trial, init, Scan(best, bestTime), tried);
    }
    SearchBestRange(max, trial, init);
  }

  /** Loop invariant of DoublingSearch: from candidate 2^e in state s,
      having dispatched `tried`, the rest of the search gives the whole
      search's result. */
  ghost predicate SearchFromHere(e: nat, max: nat, trial: nat -> Trial, init: nat, s: Scan, tried: seq<nat>)
  {
    Search(e, max, trial, s) == Search(0, max, trial, Scan(init, None)) &&
    tried + Tried(e, max, trial) == Tried(0, max, trial)
  }

  /** One step of the loop keeps its invariant, a failure ends the search
      with the state it had, and so does running past the maximum. */
  lemma SearchStep(e: nat, max: nat, trial: nat -> Trial, init: nat, s: Scan, tried: seq<nat>)
    requires SearchFromHere(e, max, trial, init, s, tried)
    ensures Pow2(e) > max ==> s == Search(0, max, trial, Scan(init, None)) && tried == Tried(0, max, trial)
    ensures Pow2(e) <= max && trial(Pow2(e)).Fail? ==>
      s == Search(0, max, trial, Scan(init, None)) && tried + [Pow2(e)] == Tried(0, max, trial)
    ensures Pow2(e) <= max && trial(Pow2(e)).Ok? ==>
      var t := trial(Pow2(e)).time;
      SearchFromHere(e + 1, max, trial, init,
                     if Improves(t, s.bestTime) then Scan(Pow2(e), Some(t)) else s, tried + [Pow2(e)])
  {
    if Pow2(e) > max {
      assert tried + [] == tried;
    } else if trial(Pow2(e)).Ok? {
      assert tried + Tried(e, max, trial) == (tried + [Pow2(e)]) + Tried(e + 1, max, trial);
    }
  }

  /** Shape of what is tried: 2^e, 2^(e+1), ... in increasing order, all
      within the maximum, all successful except possibly the last; and when
      the last one succeeded, the next candidate would exceed the maximum. */
  lemma {:induction false} TriedShape(e: nat, max: nat, trial: nat -> Trial)
    ensures var t := Tried(e, max, trial);
      (forall i :: 0 <= i < |t| ==> t[i] == Pow2(e + i) && t[i] <= max) &&
      (forall i :: 0 <= i < |t| - 1 ==> trial(t[i]).Ok?) &&
      (t == [] || trial(t[|t| - 1]).Ok? ==> Pow2(e + |t|) > max)
    decreases max - Pow2(e)
  {
    if Pow2(e) <= max && trial(Pow2(e)).Ok? {
      TriedShape(e + 1, max, trial);
    }
  }

  /** When the search changes the best, the new best is a tried candidate
      that succeeded with the best time, and that time improved on the
      initial one. */
  lemma {:induction false} SearchPicksTried(e: nat, max: nat, trial: nat -> Trial, s: Scan)
    ensures var r := Search(e, max, trial, s); var t := Tried(e, max, trial);
      r == s ||
      (r.best in t && r.bestTime.Some? && trial(r.best) == Ok(r.bestTime.value) &&
       Improves(r.bestTime.value, s.bestTime))
    decreases max - Pow2(e)
  {
    if Pow2(e) <= max && trial(Pow2(e)).Ok? {
      var c, time := Pow2(e), trial(Pow2(e)).time;
      var s' := if Improves(time, s.bestTime) then Scan(c, Some(time)) else s;
      SearchPicksTried(e + 1, max, trial, s');
      var r := Search(e + 1, max, trial, s');
      if r != s' && s' != s {
        assert Improves(r.bestTime.value, s'.bestTime);
      }
    }
  }

  /** The best time never gets worse, and once a candidate has succeeded
      there is a best time. */
  lemma {:induction false} SearchKeepsBestTime(e: nat, max: nat, trial: nat -> Trial, s: Scan)
    ensures var r := Search(e, max, trial, s);
      (s.bestTime.Some? ==> r.bestTime.Some? && r.bestTime.value <= s.bestTime.value) &&
      ((exists c :: c in Tried(e, max, trial) && trial(c).Ok?) ==> r.bestTime.Some?)
    decreases max - Pow2(e)
  {
    if Pow2(e) <= max && trial(Pow2(e)).Ok? {
      var time := trial(Pow2(e)).time;
      var s' := if Improves(time, s.bestTime) then Scan(Pow2(e), Some(time)) else s;
      SearchKeepsBestTime(e + 1, max, trial, s');
    }
  }

  /** No successful tried candidate is faster than the best. */
  lemma {:induction false} SearchIsFastest(e: nat, max: nat, trial: nat -> Trial, s: Scan)
    ensures var r := Search(e, max, trial, s);
      r.bestTime.Some? ==>
        forall c :: c in Tried(e, max, trial) && trial(c).Ok? ==> r.bestTime.value <= trial(c).time
    decreases max - Pow2(e)
  {
    if Pow2(e) <= max && trial(Pow2(e)).Ok? {
      var time := trial(Pow2(e)).time;
      var s' := if Improves(time, s.bestTime) then Scan(Pow2(e), Some(time)) else s;
      SearchIsFastest(e + 1, max, trial, s');
      SearchKeepsBestTime(e + 1, max, trial, s');
    }
  }

  /** Ties keep the earlier candidate: every smaller successful candidate
      was strictly slower than the one the search picked. */
  lemma {:induction false} SearchKeepsEarliest(e: nat, max: nat, trial: nat -> Trial, s: Scan)
    ensures var r := Search(e, max, trial, s);
      r != s ==>
        r.bestTime.Some? &&
        forall c :: c in Tried(e, max, trial) && c < r.best && trial(c).Ok? ==>
          r.bestTime.value < trial(c).time
    decreases max - Pow2(e)
  {
    SearchPicksTried(e, max, trial, s);
    if Pow2(e) <= max && trial(Pow2(e)).Ok? {
      var time := trial(Pow2(e)).time;
      var s' := if Improves(time, s.bestTime) then Scan(Pow2(e), Some(time)) else s;
      var later := Tried(e + 1, max, trial);
      SearchKeepsEarliest(e + 1, max, trial, s');
      SearchPicksTried(e + 1, max, trial, s');
      TriedShape(e + 1, max, trial);
      forall i | 0 <= i < |later| ensures later[i] > Pow2(e) {
        Pow2Grows(e, e + 1 + i);
      }
    }
  }

  lemma {:induction false} Pow2Grows(a: nat, b: nat)
    requires a < b
    ensures Pow2(a) < Pow2(b)
    decreases b
  {
    if a + 1 < b {
      Pow2Grows(a, b - 1);
    }
  }

  /** What a whole search from `init` picks: when some candidate succeeded,
      a successful candidate with the least time, the smallest one among
      equals; when none did, `init` itself. */
  lemma SearchBestIsFastestTried(max: nat, trial: nat -> Trial, init: nat)
    ensures var best := SearchBest(max, trial, init); var t := Tried(0, max, trial);
      if exists c :: c in t && trial(c).Ok? then
        best in t && trial(best).Ok? &&
        (forall c :: c in t && trial(c).Ok? ==> trial(best).time <= trial(c).time) &&
        (forall c :: c in t && c < best && trial(c).Ok? ==> trial(best).time < trial(c).time)
      else
        best == init
  {
    var s := Scan(init, None);
    SearchPicksTried(0, max, trial, s);
    SearchKeepsBestTime(0, max, trial, s);
    SearchIsFastest(0, max, trial, s);
    SearchKeepsEarliest(0, max, trial, s);
  }

  /** The search result is the initial value or a power of two within the
      maximum whose trial succeeded. */
  lemma SearchBestRange(max: nat, trial: nat -> Trial, init: nat)
    ensures var best := SearchBest(max, trial, init);
      best == init || (IsPow2(best) && best <= max && trial(best).Ok?)
  {
    var best := SearchBest(max, trial, init);
    var t := Tried(0, max, trial);
    SearchPicksTried(0, max, trial, Scan(init, None));
    TriedShape(0, max, trial);
    if best != init {
      var i :| 0 <= i < |t| && t[i] == best;
      Pow2IsPow2(i);
    }
  }

  /** A failing first trial (candidate 1) ends the search at once and keeps
      the initial value. */
  lemma FirstFailureKeepsInit(max: nat, trial: nat -> Trial, init: nat)
    requires max >= 1 && trial(1).Fail?
    ensures Tried(0, max, trial) == [1]
    ensures SearchBest(max, trial, init) == init
  {
  }

  /** With a power-of-two maximum and no failure, the doubling reaches the
      maximum itself as its last candidate. */
  lemma SearchReachesMax(max: nat, trial: nat -> Trial)
    requires IsPow2(max)
    requires forall c :: c in Tried(0, max, trial) ==> trial(c).Ok?
    ensures var t := Tried(0, max, trial); |t| > 0 && t[|t| - 1] == max
  {
    var t := Tried(0, max, trial);
    TriedShape(0, max, trial);
    assert t != [];
    Pow2IsPow2(|t| - 1);
    Pow2StepsOnto(t[|t| - 1], max);
  }

  /** The two tuning phases; a trial outcome may depend on the phase, so a
      geometry timed in both phases may get two different times. */
  datatype Phase = LanePhase | JobPhase

  /** The kernel runner as a timing oracle: one `run` + `finish`. */
  type Runner = (Phase, Geometry) -> Trial

  /** Lane candidates are timed with the jobs per block held fixed. */
  function LaneTrial(runner: Runner, jobs: nat): nat -> Trial
  {
    (lanes: nat) => runner(LanePhase, Geometry(lanes, jobs))
  }

  /** Job candidates are timed with the lanes per block held fixed. */
  function JobTrial(runner: Runner, lanes: nat): nat -> Trial
  {
    (jobs: nat) => runner(JobPhase, Geometry(lanes, jobs))
  }

  /** Condition of the lane search. */
  predicate LaneSearchRuns(b: Bounds)
    requires b.Valid()
  {
    b.maxLanes > b.minLanes && IsPowerOfTwo(b.maxLanes)
  }

  /** Condition of the jobs search: only when the lanes reached their maximum. */
  predicate JobSearchRuns(b: Bounds, lanes: nat)
    requires b.Valid()
  {
    lanes == b.maxLanes && b.maxJobs > b.minJobs && IsPowerOfTwo(b.maxJobs)
  }

  /** Lanes per block after the lane phase. */
  function TunedLanes(b: Bounds, runner: Runner): nat
    requires b.Valid()
  {
    if LaneSearchRuns(b) then SearchBest(b.maxLanes, LaneTrial(runner, b.minJobs), b.minLanes)
    else b.minLanes
  }

  /** The geometry the constructor leaves behind. */
  function Tuned(b: Bounds, runner: Runner): Geometry
    requires b.Valid()
  {
    var lanes := TunedLanes(b, runner);
    var jobs :=
      if JobSearchRuns(b, lanes) then SearchBest(b.maxJobs, JobTrial(runner, lanes), b.minJobs)
      else b.minJobs;
    Geometry(lanes, jobs)
  }

  /** Geometries of the candidates `cs` at a fixed jobs per block. */
  function AtJobs(cs: seq<nat>, jobs: nat): (gs: seq<Geometry>)
  {
    seq(|cs|, i requires 0 <= i < |cs| => Geometry(cs[i], jobs))
  }

  /** Geometries of the candidates `cs` at a fixed lanes per block. */
  function AtLanes(cs: seq<nat>, lanes: nat): (gs: seq<Geometry>)
  {
    seq(|cs|, i requires 0 <= i < |cs| => Geometry(lanes, cs[i]))
  }

  /** Geometries dispatched by the lane phase, in order. */
  function LaneLaunches(b: Bounds, runner: Runner): seq<Geometry>
    requires b.Valid()
  {
    if LaneSearchRuns(b) then AtJobs(Tried(0, b.maxLanes, LaneTrial(runner, b.minJobs)), b.minJobs)
    else []
  }

  /** Geometries dispatched by the jobs phase, in order. */
  function JobLaunches(b: Bounds, runner: Runner): seq<Geometry>
    requires b.Valid()
  {
    var lanes := TunedLanes(b, runner);
    if JobSearchRuns(b, lanes) then AtLanes(Tried(0, b.maxJobs, JobTrial(runner, lanes)), lanes)
    else []
  }

  /** Every geometry dispatched during construction, in order. */
  function TuningLaunches(b: Bounds, runner: Runner): seq<Geometry>
    requires b.Valid()
  {
    LaneLaunches(b, runner) + JobLaunches(b, runner)
  }

  /** Without either search the geometry stays at the runner's minima. */
  lemma UntunedStaysAtMinima(b: Bounds, runner: Runner)
    requires b.Valid()
    requires !LaneSearchRuns(b)
    requires !JobSearchRuns(b, b.minLanes)
    ensures Tuned(b, runner) == Geometry(b.minLanes, b.minJobs)
    ensures TuningLaunches(b, runner) == []
  {
  }

  /** The tuned lanes per block never exceed the maximum and are either the
      minimum or a power of two. */
  lemma TunedLanesRange(b: Bounds, runner: Runner)
    requires b.Valid()
    ensures var lanes := Tuned(b, runner).lanes;
      lanes <= b.maxLanes && (lanes == b.minLanes || IsPow2(lanes))
  {
    SearchBestRange(b.maxLanes, LaneTrial(runner, b.minJobs), b.minLanes);
  }

  /** Likewise for the tuned jobs per block. */
  lemma TunedJobsRange(b: Bounds, runner: Runner)
    requires b.Valid()
    ensures var jobs := Tuned(b, runner).jobs;
      jobs <= b.maxJobs && (jobs == b.minJobs || IsPow2(jobs))
  {
    var lanes := TunedLanes(b, runner);
    SearchBestRange(b.maxJobs, JobTrial(runner, lanes), b.minJobs);
  }

  /** The jobs per block move away from the minimum only after the lanes
      reached their maximum, and the jobs phase never changes the lanes. */
  lemma JobsTunedOnlyWhenLanesSaturate(b: Bounds, runner: Runner)
    requires b.Valid()
    ensures Tuned(b, runner).lanes == TunedLanes(b, runner)
    ensures Tuned(b, runner).jobs != b.minJobs ==>
      Tuned(b, runner).lanes == b.maxLanes && b.maxJobs > b.minJobs && IsPow2(b.maxJobs)
  {
    PowerOfTwoMeaning(b.maxJobs);
  }

  /** With a single lane setting the lane search is skipped, yet the jobs
      search still runs at that lane setting. */
  lemma FixedLanesStillTuneJobs(b: Bounds, runner: Runner)
    requires b.Valid() && b.minLanes == b.maxLanes
    requires b.maxJobs > b.minJobs && IsPowerOfTwo(b.maxJobs)
    ensures Tuned(b, runner) ==
      Geometry(b.minLanes, SearchBest(b.maxJobs, JobTrial(runner, b.minLanes), b.minJobs))
    ensures TuningLaunches(b, runner) ==
      AtLanes(Tried(0, b.maxJobs, JobTrial(runner, b.minLanes)), b.minLanes)
  {
  }

  /** The lane candidates start at 1, not at the minimum, so the tuned lanes
      per block can fall below the runner's minimum. */
  lemma LanesCanFallBelowMinimum()
    ensures var b := Bounds(2, 4, 1, 1);
      b.Valid() && Tuned(b, (p: Phase, g: Geometry) => Ok(g.lanes)).lanes == 1 < b.minLanes
  {
    var b := Bounds(2, 4, 1, 1);
    var runner: Runner := (p: Phase, g: Geometry) => Ok(g.lanes);
    PowerOfTwoMeaning(4);
    var trial := LaneTrial(runner, 1);
    assert Search(2, 4, trial, Scan(1, Some(1))) == Scan(1, Some(1));
    assert Search(0, 4, trial, Scan(2, None)) == Search(1, 4, trial, Scan(1, Some(1)));
  }

  /** The winning lane setting, when it came from a trial, was timed at the
      runner's minimum jobs per block and was no slower than any other
      lane candidate tried. */
  lemma TunedLanesFastest(b: Bounds, runner: Runner)
    requires b.Valid() && LaneSearchRuns(b)
    ensures var trial := LaneTrial(runner, b.minJobs);
      var t := Tried(0, b.maxLanes, trial);
      var lanes := Tuned(b, runner).lanes;
      (exists c :: c in t && trial(c).Ok?) ==>
        runner(LanePhase, Geometry(lanes, b.minJobs)).Ok? &&
        forall c :: c in t && trial(c).Ok? ==>
          runner(LanePhase, Geometry(lanes, b.minJobs)).time <= runner(LanePhase, Geometry(c, b.minJobs)).time
  {
    SearchBestIsFastestTried(b.maxLanes, LaneTrial(runner, b.minJobs), b.minLanes);
  }

  /** The jobs phase never regresses either: when it runs and some job
      candidate succeeded, the chosen jobs per block succeeded at the tuned
      lanes and were no slower than any successful candidate. */
  lemma TunedJobsFastest(b: Bounds, runner: Runner)
    requires b.Valid() && JobSearchRuns(b, TunedLanes(b, runner))
    ensures var lanes := TunedLanes(b, runner);
      var trial := JobTrial(runner, lanes);
      var t := Tried(0, b.maxJobs, trial);
      var jobs := Tuned(b, runner).jobs;
      (exists c :: c in t && trial(c).Ok?) ==>
        runner(JobPhase, Geometry(lanes, jobs)).Ok? &&
        forall c :: c in t && trial(c).Ok? ==>
          runner(JobPhase, Geometry(lanes, jobs)).time <= runner(JobPhase, Geometry(lanes, c)).time
  {
    SearchBestIsFastestTried(b.maxJobs, JobTrial(runner, TunedLanes(b, runner)), b.minJobs);
  }

  /** Geometries of a search's candidates at a fixed other dimension. */
  lemma AtLanesShape(max: nat, trial: nat -> Trial, lanes: nat)
    ensures var ls := AtLanes(Tried(0, max, trial), lanes);
      forall i :: 0 <= i < |ls| ==> ls[i] == Geometry(lanes, Pow2(i)) && Pow2(i) <= max
  {
    var t := Tried(0, max, trial);
    var ls := AtLanes(t, lanes);
    TriedShape(0, max, trial);
    forall i | 0 <= i < |ls| ensures ls[i] == Geometry(lanes, Pow2(i)) && Pow2(i) <= max {
      assert t[i] == Pow2(0 + i);
    }
  }

  lemma AtJobsShape(max: nat, trial: nat -> Trial, jobs: nat)
    ensures var ls := AtJobs(Tried(0, max, trial), jobs);
      forall i :: 0 <= i < |ls| ==> ls[i] == Geometry(Pow2(i), jobs) && Pow2(i) <= max
  {
    var t := Tried(0, max, trial);
    var ls := AtJobs(t, jobs);
    TriedShape(0, max, trial);
    forall i | 0 <= i < |ls| ensures ls[i] == Geometry(Pow2(i), jobs) && Pow2(i) <= max {
      assert t[i] == Pow2(0 + i);
    }
  }

  /** The lane phase dispatches 1, 2, 4, ... lanes per block, all within
      the maximum, at the runner's minimum jobs per block. */
  lemma LaneLaunchOrder(b: Bounds, runner: Runner)
    requires b.Valid()
    ensures var ls := LaneLaunches(b, runner);
      forall i :: 0 <= i < |ls| ==> ls[i] == Geometry(Pow2(i), b.minJobs) && Pow2(i) <= b.maxLanes
  {
    AtJobsShape(b.maxLanes, LaneTrial(runner, b.minJobs), b.minJobs);
  }

  /** The jobs phase dispatches 1, 2, 4, ... jobs per block, all within the
      maximum, at the tuned lanes per block. */
  lemma JobLaunchOrder(b: Bounds, runner: Runner)
    requires b.Valid()
    ensures var ls := JobLaunches(b, runner);
      forall i :: 0 <= i < |ls| ==>
        ls[i] == Geometry(TunedLanes(b, runner), Pow2(i)) && Pow2(i) <= b.maxJobs
  {
    var lanes := TunedLanes(b, runner);
    AtLanesShape(b.maxJobs, JobTrial(runner, lanes), lanes);
  }
}

=== FILE: wrappers.dfy ===
/** Optional values, used for an environment variable that may be unset
    and for a best time that may not exist yet. */
module Wrappers {
  datatype Option<+T> = None | Some(value: T)
}
